=== FILE: README.md ===
# Lead-intake form and mail route, modelled in Dafny

This project models the only logic of a debt-collection consultancy's
marketing site: the lead-intake form of the request page and the server
route that mails a submission to the business.

- `phone_format.dfy` (module `PhoneFormat`): the phone-number formatter.
  It keeps the ASCII digits of what was typed. It regroups them 3-4-4 with
  dashes and drops every digit past the eleventh. The lemmas prove the shape
  of the output for each length class. They prove that the output's digits
  are the kept prefix of the input's digits. They prove that formatting is
  idempotent, so reformatting on every keystroke is stable.
- `request_page.dfy` (module `RequestPage`): the form state.
  - `FormData` is the flat record and `InitialFormData` its empty value.
  - The class `RequestForm` holds `formData`, `isSubmitting` and
    `submitStatus` (`Idle | Success | Error`).
  - Its methods are the page's change handlers and its submit handler. The
    external send is a parameter: it answers with a status, or it throws.
  - `Consistent()` is the form's invariant: the phone field is in formatted
    shape and no unpaid-detail code is listed twice. The methods preserve it
    for every change the page's own inputs can produce.
  - The module also holds the client-side copies of two label tables, proved
    to agree with the route's tables on every code. It also builds the flat
    parameter set for the client-side delivery service.
- `send_email_route.dfy` (module `SendEmailRoute`): the server route.
  - Three label translators: a table lookup that falls back to the code
    itself.
  - The `||` defaults of the optional fields, over a JavaScript-like `Value`
    (undefined, null, booleans, integers, strings, string arrays, other
    objects) so that truthiness and `${}` rendering are explicit.
  - The unpaid-items line, the subject line, and the `POST` envelope
    (200 with success, or 500).
- `common.dfy` (module `Common`): `Option`, the lookup-or-key idiom,
  `map`/`join`, a reader that splits a joined line back into its items, and
  the `filter` that unchecks a box.

Three behaviours of the code that a reader might expect otherwise:

- The unpaid-detail label of `management_fee` is `일반관리비`, not `관리비`
  (`RequestPage.IndividualScenario`).
- The unpaid details are a list, not a set. Checking a code appends it
  however often it is already there (`RequestPage.CheckTwiceDuplicates`).
  The list stays duplicate-free only because the page's checkbox is checked
  exactly when the code is absent (`RequestPage.CheckDetailKeepsNoDup`).
- A submit refused by the consent gate leaves `submitStatus` as it was, which
  is not necessarily `idle`.

## Model

| member | source | states |
|---|---|---|
| `Common.LookupOr` | src/app/api/send-email/route.ts:26 | a key absent from the table comes back unchanged; a key with a non-empty label gives that label; a key whose label is empty (falsy) comes back unchanged |
| `Common.MapSeq` | src/app/api/send-email/route.ts:104 | `map` keeps the length and applies the function at every index |
| `Common.Join` | src/app/api/send-email/route.ts:104 | an empty list joins to the empty line, a one-item list to its item, and a longer line starts with the first item |
| `Common.SplitJoin` | src/app/api/send-email/route.ts:104 | a non-empty list of comma-free items joined with ", " reads back as the same items in the same order |
| `Common.JoinSnoc` | src/app/api/send-email/route.ts:104 | appending an item to a non-empty list appends the separator and the item to the joined line |
| `Common.RemoveAll` | src/app/request/page.tsx:63 | the filter removes every occurrence of the value and keeps every other item with its count |
| `Common.RemoveAllAppend` | src/app/request/page.tsx:63 | the filter distributes over concatenation, so the kept items stay in order |
| `Common.RemoveAllNoDup` | src/app/request/page.tsx:63 | filtering a duplicate-free list leaves it duplicate-free |
| `PhoneFormat.Digits` | src/app/request/page.tsx:170 | stripping non-digits yields only ASCII digits and never lengthens the text |
| `PhoneFormat.DigitsOfChar` | src/app/request/page.tsx:170 | a single digit is kept and any other single character is dropped |
| `PhoneFormat.DigitsKeepsEveryDigit` | src/app/request/page.tsx:170 | every digit occurs in the result as often as in the input |
| `PhoneFormat.DigitsAppend` | src/app/request/page.tsx:170 | the digits of a concatenation are the concatenation of the digits |
| `PhoneFormat.DigitsOfDigits` | src/app/request/page.tsx:170 | stripping non-digits from a string of digits changes nothing |
| `PhoneFormat.FormatPhoneNumber` | src/app/request/page.tsx:169-174 | the output holds only ASCII digits and dashes and is at most 13 characters long |
| `PhoneFormat.FormatShort` | src/app/request/page.tsx:171 | with at most 3 digits the output is exactly those digits, without a dash |
| `PhoneFormat.FormatMedium` | src/app/request/page.tsx:172 | with 4 to 7 digits the output is the first three digits, a dash, the rest; its only dash is at index 3 |
| `PhoneFormat.FormatLong` | src/app/request/page.tsx:173 | with 8 or more digits the output is the 3-4-rest grouping of the first 11 digits; its only dashes are at indices 3 and 8 |
| `PhoneFormat.FormatKeepsDigits` | src/app/request/page.tsx:170-173 | read in order, the output's digits are the first min(11, n) digits of the input |
| `PhoneFormat.FormatIdempotent` | src/app/request/page.tsx:176-183 | formatting a formatted value gives it back unchanged |
| `PhoneFormat.RegroupElevenDigits` | src/app/request/page.tsx:169-174 | eleven digits typed as groups of 3, 4 and 4 with any non-digit separator come out as those groups joined with dashes |
| `PhoneFormat.SpacedNumberExample` | src/app/request/page.tsx:169-174 | `010 1234 5678` is formatted as `010-1234-5678` |
| `PhoneFormat.LettersDroppedExample` | src/app/request/page.tsx:169-174 | `abc123` is formatted as `123` |
| `SendEmailRoute.Truthy` | src/app/api/send-email/route.ts:90 | exactly undefined, null, false, 0 and the empty string are falsy |
| `SendEmailRoute.NatToString` | src/app/api/send-email/route.ts:85 | a number is written in its canonical decimal form: non-empty, digits only, starting with 0 only when it is "0", and reading back as the number |
| `SendEmailRoute.DecimalUnique` | src/app/api/send-email/route.ts:85 | a number has exactly one canonical decimal writing, so the number clauses of `Render` fix its text |
| `SendEmailRoute.Render` | src/app/api/send-email/route.ts:85-111 | `${}` writes a string as itself, an array as its items joined with ",", an integer in canonical decimal with a leading `-` when negative (exact for magnitudes below 10^21 and within 2^53), booleans as true/false, and undefined, null and other objects as `undefined`, `null` and `[object Object]` |
| `SendEmailRoute.TruthyRendersText` | src/app/api/send-email/route.ts:90 | a truthy value other than an array renders as non-empty text |
| `SendEmailRoute.OrDefault` | src/app/api/send-email/route.ts:90 | a truthy value renders as itself and a falsy value as the fallback; the result is blank only for an array value |
| `SendEmailRoute.TranslateClientType` | src/app/api/send-email/route.ts:19-27 | the four client-type codes map to their fixed labels; the result differs from the input exactly when the input is one of the four codes |
| `SendEmailRoute.TranslatePreviousAttempts` | src/app/api/send-email/route.ts:30-40 | the six prior-attempt codes map to their fixed labels; the result differs from the input exactly when the input is one of the six codes |
| `SendEmailRoute.TranslateUnpaidDetail` | src/app/api/send-email/route.ts:43-53 | the six unpaid-detail codes map to their fixed labels; the result differs from the input exactly when the input is one of the six codes |
| `SendEmailRoute.TranslateValue` | src/app/api/send-email/route.ts:89 | only a string is translated; any other posted value is handed back as it is |
| `SendEmailRoute.DetailsLine` | src/app/api/send-email/route.ts:104 | an empty list gives the empty line, one code gives its label, and a longer line starts with the first code's label |
| `SendEmailRoute.DetailsLineSnoc` | src/app/api/send-email/route.ts:104 | each further code adds ", " and its label at the end of the line |
| `SendEmailRoute.DetailsLineReadsBack` | src/app/api/send-email/route.ts:104 | a non-empty line of comma-free codes reads back as the translated codes in input order |
| `SendEmailRoute.RenderEmail` | src/app/api/send-email/route.ts:85-115 | rendering fails exactly when `unpaidDetails` is not an array. Otherwise the client type and prior attempts are translated. Position and debtor phone render as posted when truthy and as 미입력 when falsy. Notes render as posted or as 없음. Documents render as 있음 or 없음 by truthiness. Name, phone, email, site, debtor name, unit and period render as posted |
| `SendEmailRoute.Subject` | src/app/api/send-email/route.ts:127 | the subject is the fixed prefix, the site name, one space, then the unit |
| `SendEmailRoute.Post` | src/app/api/send-email/route.ts:55-146 | the status is 200 or 500; success holds exactly when the status is 200, and exactly when the body was read, rendered and accepted by the transport; a mail is handed over exactly when the body was read and rendered, with the composed subject |
| `RequestPage.FieldNamed` | src/app/request/page.tsx:72-75 | only the seven text-input names designate a text field, and a name designates exactly the field whose name it is |
| `RequestPage.FieldNamedFindsEachField` | src/app/request/page.tsx:72-75 | every text field is found again by its own name |
| `RequestPage.WithText` | src/app/request/page.tsx:72-75 | the named field takes the new value and every other field keeps its old value |
| `RequestPage.CheckDetail` | src/app/request/page.tsx:58-64 | checking appends the code at the end; unchecking removes every occurrence and keeps the counts of all other codes, in their order (the `filter` of `RemoveAll`) |
| `RequestPage.CheckDetailKeepsNoDup` | src/app/request/page.tsx:58-64 | checking an absent code, or unchecking any code, keeps the list duplicate-free |
| `RequestPage.CheckThenUncheck` | src/app/request/page.tsx:58-64 | checking an absent code and then unchecking it restores the list |
| `RequestPage.CheckTwiceDuplicates` | src/app/request/page.tsx:61-62 | checking the same code twice lists it twice |
| `RequestPage.TranslateClientType` | src/app/request/page.tsx:114-122 | the client-side client-type table gives the route's label for every code |
| `RequestPage.TranslateUnpaidDetail` | src/app/request/page.tsx:101-111 | the client-side unpaid-detail table gives the route's label for every code |
| `RequestPage.BuildTemplateParams` | src/app/request/page.tsx:126-142 | the parameter set carries the entered fields, duplicates the email, and renders the client type and unpaid-items line as the route does |
| `RequestPage.IndividualScenario` | src/app/request/page.tsx:126-142 | an individual client with management fee and late fee checked gives 개인 and 일반관리비, 연체료 |
| `RequestPage.RequestForm.constructor` | src/app/request/page.tsx:38-40 | the form starts empty, not submitting, idle, and consistent |
| `RequestPage.RequestForm.HandleInputChange` | src/app/request/page.tsx:52-77 | a checkbox change on the details appends or filters, one on `privacyConsent` sets the consent flag, and a text change sets only the named field; the invariant is kept for every change the page's inputs produce |
| `RequestPage.RequestForm.HandlePhoneChange` | src/app/request/page.tsx:176-183 | the named field is set to the formatted value and nothing else changes; the invariant is kept |
| `RequestPage.RequestForm.HandleSubmit` | src/app/request/page.tsx:79-167 | without consent, nothing is sent and no state changes. With consent, the send is made only when configured, with the built parameters. Status 200 gives success and resets the form. Anything else gives error and keeps the data. `isSubmitting` ends false |

## Left out

- The landing page, its scroll animations, and the layout's metadata and structured data are not part of this model. They hold no logic.
- The outbound transports are parameters of the model: `sendMail` becomes `transportAccepts`, and `emailjs.send` becomes a `SendOutcome`. So are `request.json()` (the `parsed` option) and the configuration read from the process environment. The transport setup, `emailjs.init` and the logging are not modelled.
- `parseInt(...).toLocaleString()` and the `ko-KR` timestamp are caller-supplied (`formatAmount`, `submittedAt`). They are locale and clock formatting.
- The HTML and CSS around the mail's field values are not modelled, and neither are the sender and recipient addresses.
- `SendEmailRoute.TranslateValue`: a non-string value is handed back untranslated. JavaScript would coerce it to a string key, so a one-item array such as `["individual"]` would be translated. Inherited object-prototype keys are not modelled either.
- `SendEmailRoute.Render`: integers are written in plain decimal at every magnitude. JavaScript writes magnitudes of 10^21 and above in exponent form (`${1e21}` is `1e+21`), and holds integers exactly only up to 2^53, so the number clauses match `${}` only below those bounds.
- Posted values: arrays hold strings only, numbers are integers (no NaN, fractions or exponents), and objects render as `[object Object]` (no custom `toString`).
- `RequestPage.RequestForm.HandleInputChange`: a change whose name is not one of the form's inputs adds a stray property in the source. The model leaves the record unchanged. A text-typed change named `unpaidDetails` or `privacyConsent`, and a checkbox-typed change named after a text field, are also left unchanged, since the page has no such input.
- `RequestPage.RequestForm.HandleSubmit`: the submit is one atomic step. The intermediate `isSubmitting = true` / `idle` state, the awaiting, the disabled button and the alert dialog (reported as `alerted`) are not modelled as concurrency.

=== FILE: common.dfy ===
/** Small helpers shared by the intake page and the mail route: an Option type,
    the "table lookup or the key itself" idiom of the label translators, the
    `map(...).join(', ')` rendering of a list, and the `filter` used to uncheck
    an unpaid-detail box. */
module Common {

  datatype Option<T> = None | Some(value: T)

  /** `table[key] || key`: the mapped label when the key is in the table and
      its label is not empty (an empty string is falsy), otherwise the key. */
  function LookupOr(table: map<string, string>, key: string): (r: string)
    ensures key !in table ==> r == key
    ensures key in table && table[key] != "" ==> r == table[key]
    ensures key in table && table[key] == "" ==> r == key
  {
    if key in table && table[key] != "" then table[key] else key
  }

  /** `xs.map(f)` */
  function MapSeq(f: string -> string, xs: seq<string>): (r: seq<string>)
    ensures |r| == |xs|
    ensures forall i :: 0 <= i < |xs| ==> r[i] == f(xs[i])
  {
    seq(|xs|, i requires 0 <= i < |xs| => f(xs[i]))
  }

  /** `xs.join(sep)`: a one-item list joins to its item, and a longer line
      starts with the first item (JoinSnoc gives the rest). */
  function Join(xs: seq<string>, sep: string): (r: string)
    ensures xs == [] ==> r == ""
    ensures |xs| == 1 ==> r == xs[0]
    ensures xs != [] ==> |xs[0]| <= |r| && r[..|xs[0]|] == xs[0]
  {
    if |xs| == 0 then ""
    else if |xs| == 1 then xs[0]
    else xs[0] + sep + Join(xs[1..], sep)
  }

  /** Position of the first ',' in s, or |s| when there is none. */
  function IndexOfComma(s: string): (i: nat)
    ensures i <= |s|
    ensures forall j :: 0 <= j < i ==> s[j] != ','
    ensures i < |s| ==> s[i] == ','
  {
    if s == [] then 0
    else if s[0] == ',' then 0
    else 1 + IndexOfComma(s[1..])
  }

  /** Reads back a line written by `Join(_, ", ")`: cut at every comma and
      drop the character that follows it. */
  function SplitList(s: string): seq<string>
    decreases |s|
  {
    var i := IndexOfComma(s);
    if i == |s| then [s]
    else [s[..i]] + SplitList(s[if i + 2 <= |s| then i + 2 else |s|..])
  }

  predicate CommaFree(s: string)
  {
    forall j :: 0 <= j < |s| ==> s[j] != ','
  }

  lemma {:induction false} IndexOfCommaAfter(x: string, rest: string)
    requires CommaFree(x)
    ensures IndexOfComma(x + rest) == |x| + IndexOfComma(rest)
  {
    if x != [] {
      assert (x + rest)[0] == x[0] != ',';
      assert (x + rest)[1..] == x[1..] + rest;
      assert CommaFree(x[1..]) by {
        forall j | 0 <= j < |x[1..]| ensures x[1..][j] != ',' { assert x[1..][j] == x[j + 1]; }
      }
      IndexOfCommaAfter(x[1..], rest);
    } else {
      assert x + rest == rest;
    }
  }

  /** Joining comma-free items with ", " and reading the line back gives the
      items again, in order (a one-item list is its item). */
  lemma {:induction false} SplitJoin(xs: seq<string>)
    requires xs != []
    requires forall k :: 0 <= k < |xs| ==> CommaFree(xs[k])
    ensures SplitList(Join(xs, ", ")) == xs
  {
    if |xs| == 1 {
      IndexOfCommaAfter(xs[0], "");
      assert xs[0] + "" == xs[0];
    } else {
      var x, tail := xs[0], Join(xs[1..], ", ");
      var line := x + ", " + tail;
      assert line == x + (", " + tail);
      IndexOfCommaAfter(x, ", " + tail);
      assert IndexOfComma(line) == |x|;
      assert line[..|x|] == x;
      assert line[|x| + 2..] == tail;
      SplitJoin(xs[1..]);
      assert SplitList(line) == [x] + xs[1..];
    }
  }

  /** Appending an item to a non-empty list appends the separator and the
      item to the joined line. */
  lemma {:induction false} JoinSnoc(xs: seq<string>, x: string, sep: string)
    requires xs != []
    ensures Join(xs + [x], sep) == Join(xs, sep) + sep + x
  {
    if |xs| == 1 {
      assert xs + [x] == [xs[0], x];
    } else {
      assert (xs + [x])[1..] == xs[1..] + [x];
      JoinSnoc(xs[1..], x, sep);
    }
  }

  /** `s.filter(item => item !== x)` */
  function RemoveAll(s: seq<string>, x: string): (r: seq<string>)
    ensures x !in r
    ensures multiset(r) == multiset(s)[x := 0]
  {
    if s == [] then []
    else
      assert s == [s[0]] + s[1..];
      (if s[0] == x then [] else [s[0]]) + RemoveAll(s[1..], x)
  }

  /** Filtering distributes over concatenation, so it keeps the order of the
      items it keeps. */
  lemma {:induction false} RemoveAllAppend(a: seq<string>, b: seq<string>, x: string)
    ensures RemoveAll(a + b, x) == RemoveAll(a, x) + RemoveAll(b, x)
  {
    if a == [] {
      assert a + b == b;
    } else {
      var head := if a[0] == x then [] else [a[0]];
      calc {
        RemoveAll(a + b, x);
        { assert (a + b)[0] == a[0] && (a + b)[1..] == a[1..] + b; }
        head + RemoveAll(a[1..] + b, x);
        { RemoveAllAppend(a[1..], b, x); }
        head + (RemoveAll(a[1..], x) + RemoveAll(b, x));
        (head + RemoveAll(a[1..], x)) + RemoveAll(b, x);
      }
    }
  }

  lemma {:induction false} RemoveAllAbsent(s: seq<string>, x: string)
    requires x !in s
    ensures RemoveAll(s, x) == s
  {
    if s != [] {
      RemoveAllAbsent(s[1..], x);
    }
  }

  predicate NoDup(s: seq<string>)
  {
    forall i, j :: 0 <= i < j < |s| ==> s[i] != s[j]
  }

  lemma NoDupSnoc(s: seq<string>, x: string)
    requires NoDup(s) && x !in s
    ensures NoDup(s + [x])
  {
  }

  /** Filtering a duplicate-free list leaves it duplicate-free. */
  lemma {:induction false} RemoveAllNoDup(s: seq<string>, x: string)
    requires NoDup(s)
    ensures NoDup(RemoveAll(s, x))
  {
    if s != [] {
      var tail := RemoveAll(s[1..], x);
      assert NoDup(s[1..]) by {
        forall i, j | 0 <= i < j < |s[1..]| ensures s[1..][i] != s[1..][j] {
          assert s[1..][i] == s[i + 1] && s[1..][j] == s[j + 1];
        }
      }
      RemoveAllNoDup(s[1..], x);
      assert s[0] !in s[1..];
      assert multiset(tail)[s[0]] <= multiset(s[1..])[s[0]] == 0;
      assert s[0] !in tail;
    }
  }
}

=== FILE: phone_format.dfy ===
/** The phone-number formatter of the intake page: keep only the ASCII digits
    of what was typed and regroup them 3-4-4 with dashes, dropping every digit
    past the eleventh. */
module PhoneFormat {

  /** What `\d` matches: the ASCII digits only, in every regular-expression mode. */
  predicate IsDigit(c: char)
  {
    '0' <= c <= '9'
  }

  predicate AllDigits(s: string)
  {
    forall i :: 0 <= i < |s| ==> IsDigit(s[i])
  }

  /** `value.replace(/[^\d]/g, "")`: the digits of s, in order. */
  function Digits(s: string): (d: string)
    ensures AllDigits(d)
    ensures |d| <= |s|
  {
    if s == [] then ""
    else (if IsDigit(s[0]) then [s[0]] else "") + Digits(s[1..])
  }

  function Min(a: int, b: int): int
  {
    if a <= b then a else b
  }

  /** The number of digits the formatter keeps. */
  function KeptCount(value: string): nat
  {
    Min(11, |Digits(value)|)
  }

  /** `formatPhoneNumber` */
  function FormatPhoneNumber(value: string): (r: string)
    ensures forall i :: 0 <= i < |r| ==> IsDigit(r[i]) || r[i] == '-'
    ensures |r| <= 13
  {
    var n := Digits(value);
    if |n| <= 3 then n
    else if |n| <= 7 then n[..3] + "-" + n[3..]
    else n[..3] + "-" + n[3..7] + "-" + n[7..Min(11, |n|)]
  }

  /** A phone field holds a value the formatter leaves as it is. */
  predicate IsFormatted(s: string)
  {
    FormatPhoneNumber(s) == s
  }

  lemma {:induction false} DigitsAppend(a: string, b: string)
    ensures Digits(a + b) == Digits(a) + Digits(b)
  {
    if a == [] {
      assert a + b == b;
    } else {
      calc {
        Digits(a + b);
        { assert (a + b)[0] == a[0] && (a + b)[1..] == a[1..] + b; }
        (if IsDigit(a[0]) then [a[0]] else "") + Digits(a[1..] + b);
        { DigitsAppend(a[1..], b); }
        (if IsDigit(a[0]) then [a[0]] else "") + (Digits(a[1..]) + Digits(b));
      }
    }
  }

  /** Stripping non-digits from a string of digits changes nothing. */
  lemma {:induction false} DigitsOfDigits(s: string)
    requires AllDigits(s)
    ensures Digits(s) == s
  {
    if s != [] {
      DigitsOfDigits(s[1..]);
      assert s == [s[0]] + s[1..];
    }
  }

  /** One character: a digit is kept, anything else is dropped. Together
      with DigitsAppend this fixes Digits on every string. */
  lemma DigitsOfChar(c: char)
    ensures Digits([c]) == if IsDigit(c) then [c] else ""
  {
    assert [c][1..] == "";
  }

  /** Every digit occurs in the result as often as in the input. */
  lemma {:induction false} DigitsKeepsEveryDigit(s: string, c: char)
    requires IsDigit(c)
    ensures multiset(Digits(s))[c] == multiset(s)[c]
  {
    if s != [] {
      DigitsKeepsEveryDigit(s[1..], c);
      assert s == [s[0]] + s[1..];
      var head := if IsDigit(s[0]) then [s[0]] else "";
      assert multiset(Digits(s)) == multiset(head) + multiset(Digits(s[1..]));
    }
  }

  /** At most three digits: the digits themselves, without a dash. */
  lemma FormatShort(value: string)
    requires |Digits(value)| <= 3
    ensures FormatPhoneNumber(value) == Digits(value)
    ensures '-' !in FormatPhoneNumber(value)
  {
  }

  /** Four to seven digits: one dash, at index 3, after the first three digits. */
  lemma FormatMedium(value: string)
    requires 4 <= |Digits(value)| <= 7
    ensures var d, r := Digits(value), FormatPhoneNumber(value);
      r == d[..3] + "-" + d[3..] &&
      forall i :: 0 <= i < |r| ==> (r[i] == '-' <==> i == 3)
  {
  }

  /** Eight or more digits: two dashes, at indices 3 and 8, and nothing of
      the digits past the eleventh. */
  lemma FormatLong(value: string)
    requires 8 <= |Digits(value)|
    ensures var d, r := Digits(value), FormatPhoneNumber(value);
      |r| == KeptCount(value) + 2 &&
      r == d[..3] + "-" + d[3..7] + "-" + d[7..KeptCount(value)] &&
      forall i :: 0 <= i < |r| ==> (r[i] == '-' <==> i == 3 || i == 8)
  {
  }

  /** Dashes put between groups of digits are stripped again. */
  lemma {:induction false} DigitsOfTwoGroups(a: string, b: string)
    requires AllDigits(a) && AllDigits(b)
    ensures Digits(a + "-" + b) == a + b
  {
    calc {
      Digits(a + "-" + b);
      { DigitsAppend(a + "-", b); }
      Digits(a + "-") + Digits(b);
      { DigitsAppend(a, "-"); }
      Digits(a) + Digits("-") + Digits(b);
      { DigitsOfChar('-'); DigitsOfDigits(a); DigitsOfDigits(b); }
      a + "" + b;
      { assert a + "" == a; }
      a + b;
    }
  }

  /** Read in order, the digits of the output are the first min(11, n)
      digits of the input. */
  lemma FormatKeepsDigits(value: string)
    ensures Digits(FormatPhoneNumber(value)) == Digits(value)[..KeptCount(value)]
  {
    var n := Digits(value);
    if |n| <= 3 {
      DigitsOfDigits(n);
      assert n[..KeptCount(value)] == n;
    } else if |n| <= 7 {
      DigitsOfTwoGroups(n[..3], n[3..]);
      assert n[..3] + n[3..] == n == n[..KeptCount(value)];
    } else {
      var k := Min(11, |n|);
      DigitsOfGroups(n[..3], n[3..7], n[7..k], '-');
      assert n[..k] == n[..3] + n[3..7] + n[7..k];
    }
  }

  /** Reformatting an already formatted value gives it back unchanged, so
      running the formatter on every keystroke is stable. */
  lemma FormatIdempotent(value: string)
    ensures IsFormatted(FormatPhoneNumber(value))
  {
    var n := Digits(value);
    var r := FormatPhoneNumber(value);
    FormatKeepsDigits(value);
    var m := Digits(r);
    assert m == n[..Min(11, |n|)];
    if |n| <= 3 {
      assert m == n;
    } else if |n| <= 7 {
      assert m == n;
    } else {
      assert m[..3] == n[..3] && m[3..7] == n[3..7];
      assert m[7..Min(11, |m|)] == n[7..Min(11, |n|)];
    }
  }

  /** Three groups of 3, 4 and 4 digits typed with any other separator
      come out as the same groups joined with dashes. */
  lemma RegroupElevenDigits(a: string, b: string, c: string, sep: char)
    requires AllDigits(a) && AllDigits(b) && AllDigits(c) && !IsDigit(sep)
    requires |a| == 3 && |b| == 4 && |c| == 4
    ensures FormatPhoneNumber(a + [sep] + b + [sep] + c) == a + "-" + b + "-" + c
  {
    DigitsOfGroups(a, b, c, sep);
    var d := a + b + c;
    assert d[..3] == a && d[3..7] == b && d[7..11] == c;
  }

  /** Spaces between the groups are dropped and the dashes put back. */
  lemma SpacedNumberExample()
    ensures FormatPhoneNumber("010 1234 5678") == "010-1234-5678"
  {
    var a, b, c := "010", "1234", "5678";
    RegroupElevenDigits(a, b, c, ' ');
    assert a + [' '] + b + [' '] + c == "010 1234 5678";
    assert a + "-" + b + "-" + c == "010-1234-5678";
  }

  /** Separators between groups of digits are stripped again. */
  lemma {:induction false} DigitsOfGroups(a: string, b: string, c: string, sep: char)
    requires AllDigits(a) && AllDigits(b) && AllDigits(c) && !IsDigit(sep)
    ensures Digits(a + [sep] + b + [sep] + c) == a + b + c
  {
    DigitsOfChar(sep);
    DigitsOfDigits(a);
    DigitsOfDigits(b);
    DigitsOfDigits(c);
    DigitsAppend(a + [sep] + b + [sep], c);
    DigitsAppend(a + [sep] + b, [sep]);
    DigitsAppend(a + [sep], b);
    DigitsAppend(a, [sep]);
    assert a + "" == a;
  }

  /** Letters are dropped; three digits stay without a dash. */
  lemma LettersDroppedExample()
    ensures FormatPhoneNumber("abc123") == "123"
  {
    DigitsAppend("abc", "123");
    DigitsAppend("a", "bc");
    DigitsAppend("b", "c");
    DigitsOfChar('a');
    DigitsOfChar('b');
    DigitsOfChar('c');
    DigitsOfDigits("123");
    assert "abc123" == "abc" + "123" && "abc" == "a" + "bc" && "bc" == "b" + "c";
    assert Digits("abc123") == "123";
  }
}

=== FILE: request_page.dfy ===
/** The lead-intake page: the form state (a flat record, a submitting flag
    and a three-valued result), its change handlers, the consent gate, the
    parameter set built for the client-side delivery service, and the result
    transition in which success clears the form and failure keeps it. */
module RequestPage {
  import opened Common
  import opened PhoneFormat
  import SendEmailRoute

  datatype FormData = FormData(
    clientName: string, clientPhone: string, clientEmail: string,
    apartmentName: string, clientType: string,
    unpaidPeriod: string, unpaidAmount: string, unpaidDetails: seq<string>,
    privacyConsent: bool)

  const InitialFormData := FormData("", "", "", "", "", "", "", [], false)

  /** The fields a text input, a telephone input or the select writes. */
  datatype TextField =
    | ClientName | ClientPhone | ClientEmail | ApartmentName | ClientType
    | UnpaidPeriod | UnpaidAmount

  /** The `name` attribute of a text field's input. */
  function FieldName(f: TextField): string
  {
    match f
    case ClientName => "clientName"
    case ClientPhone => "clientPhone"
    case ClientEmail => "clientEmail"
    case ApartmentName => "apartmentName"
    case ClientType => "clientType"
    case UnpaidPeriod => "unpaidPeriod"
    case UnpaidAmount => "unpaidAmount"
  }

  /** The text field an input `name` attribute designates, if any. */
  function FieldNamed(name: string): (f: Option<TextField>)
    ensures f.Some? ==> FieldName(f.value) == name
    ensures f == Some(ClientPhone) <==> name == "clientPhone"
    ensures f.None? <==> name !in {"clientName", "clientPhone", "clientEmail", "apartmentName",
                                   "clientType", "unpaidPeriod", "unpaidAmount"}
  {
    match name
    case "clientName" => Some(ClientName)
    case "clientPhone" => Some(ClientPhone)
    case "clientEmail" => Some(ClientEmail)
    case "apartmentName" => Some(ApartmentName)
    case "clientType" => Some(ClientType)
    case "unpaidPeriod" => Some(UnpaidPeriod)
    case "unpaidAmount" => Some(UnpaidAmount)
    case _ => None
  }

  /** Every text field is found again by its own name. */
  lemma FieldNamedFindsEachField(g: TextField)
    ensures FieldNamed(FieldName(g)) == Some(g)
  {
  }

  function Get(d: FormData, f: TextField): string
  {
    match f
    case ClientName => d.clientName
    case ClientPhone => d.clientPhone
    case ClientEmail => d.clientEmail
    case ApartmentName => d.apartmentName
    case ClientType => d.clientType
    case UnpaidPeriod => d.unpaidPeriod
    case UnpaidAmount => d.unpaidAmount
  }

  /** `{...prev, [name]: value}` for a text field: the named field takes the
      new value and every other field keeps its old one. */
  function WithText(d: FormData, f: TextField, value: string): (r: FormData)
    ensures Get(r, f) == value
    ensures forall g :: g != f ==> Get(r, g) == Get(d, g)
    ensures r.unpaidDetails == d.unpaidDetails && r.privacyConsent == d.privacyConsent
  {
    match f
    case ClientName => d.(clientName := value)
    case ClientPhone => d.(clientPhone := value)
    case ClientEmail => d.(clientEmail := value)
    case ApartmentName => d.(apartmentName := value)
    case ClientType => d.(clientType := value)
    case UnpaidPeriod => d.(unpaidPeriod := value)
    case UnpaidAmount => d.(unpaidAmount := value)
  }

  /** An unpaid-detail checkbox: checking appends the code at the end,
      unchecking removes every occurrence of it and keeps the rest in order. */
  function CheckDetail(details: seq<string>, code: string, checked: bool): (r: seq<string>)
    ensures checked ==> r == details + [code]
    ensures !checked ==> code !in r && multiset(r) == multiset(details)[code := 0]
    ensures !checked ==> r == RemoveAll(details, code)
  {
    if checked then details + [code] else RemoveAll(details, code)
  }

  /** Checking a code that is not yet listed, or unchecking any code, keeps
      the list free of duplicates. */
  lemma CheckDetailKeepsNoDup(details: seq<string>, code: string, checked: bool)
    requires NoDup(details)
    requires checked ==> code !in details
    ensures NoDup(CheckDetail(details, code, checked))
  {
    if checked {
      NoDupSnoc(details, code);
    } else {
      RemoveAllNoDup(details, code);
    }
  }

  /** Checking a code that is not listed and then unchecking it gives the
      list back as it was. */
  lemma {:induction false} CheckThenUncheck(details: seq<string>, code: string)
    requires code !in details
    ensures CheckDetail(CheckDetail(details, code, true), code, false) == details
  {
    calc {
      RemoveAll(details + [code], code);
      { RemoveAllAppend(details, [code], code); }
      RemoveAll(details, code) + RemoveAll([code], code);
      { RemoveAllAbsent(details, code); assert [code][1..] == []; }
      details;
    }
  }

  /** The list is not a set: checking the same code twice lists it twice. */
  lemma CheckTwiceDuplicates(details: seq<string>, code: string)
    ensures !NoDup(CheckDetail(CheckDetail(details, code, true), code, true))
  {
    var r := details + [code] + [code];
    assert r[|r| - 2] == r[|r| - 1];
  }

  /** The client-side copy of the client-type table; it agrees with the
      route's on every code. */
  function TranslateClientType(code: string): (name: string)
    ensures name == SendEmailRoute.TranslateClientType(code)
  {
    LookupOr(map[
      "management_office" := "관리사무소",
      "management_committee" := "관리위원회",
      "management_company" := "위탁관리회사",
      "individual" := "개인"
    ], code)
  }

  /** The client-side copy of the unpaid-detail table; it agrees with the
      route's on every code. */
  function TranslateUnpaidDetail(code: string): (name: string)
    ensures name == SendEmailRoute.TranslateUnpaidDetail(code)
  {
    LookupOr(map[
      "management_fee" := "일반관리비",
      "repair_fund" := "수선충당금",
      "utility_fee" := "전기료",
      "late_fee" := "연체료",
      "special_fee" := "특별징수금",
      "other" := "기타"
    ], code)
  }

  /** The flat parameter set sent to the delivery service. */
  datatype TemplateParams = TemplateParams(
    clientName: string, clientPhone: string, clientEmail: string, email: string,
    apartmentName: string, clientType: string,
    unpaidPeriod: string, unpaidAmount: string, unpaidDetails: string,
    submittedAt: string)

  /** `templateParams`. `formatAmount` stands for
      `parseInt(v).toLocaleString()` and `submittedAt` for the clock reading.
      The client channel renders the client type and the unpaid-items line
      exactly as the mail route renders them for the same codes. */
  function BuildTemplateParams(d: FormData, formatAmount: string -> string, submittedAt: string): (p: TemplateParams)
    ensures p.email == p.clientEmail == d.clientEmail
    ensures p.clientName == d.clientName && p.clientPhone == d.clientPhone
    ensures p.apartmentName == d.apartmentName && p.unpaidPeriod == d.unpaidPeriod
    ensures p.clientType == SendEmailRoute.TranslateClientType(d.clientType)
    ensures p.unpaidDetails == SendEmailRoute.DetailsLine(d.unpaidDetails)
    ensures p.unpaidAmount == formatAmount(d.unpaidAmount)
    ensures p.submittedAt == submittedAt
  {
    var labels := MapSeq(TranslateUnpaidDetail, d.unpaidDetails);
    assert labels == MapSeq(SendEmailRoute.TranslateUnpaidDetail, d.unpaidDetails);
    TemplateParams(
      d.clientName, d.clientPhone, d.clientEmail, d.clientEmail,
      d.apartmentName, TranslateClientType(d.clientType),
      d.unpaidPeriod, formatAmount(d.unpaidAmount),
      Join(labels, ", "),
      submittedAt)
  }

  /** Individual client, management fee and late fee checked: the translated
      type and the unpaid-items line of the parameter set. */
  lemma IndividualScenario(d: FormData, formatAmount: string -> string, submittedAt: string)
    requires d.clientType == "individual" && d.unpaidDetails == ["management_fee", "late_fee"]
    ensures BuildTemplateParams(d, formatAmount, submittedAt).clientType == "개인"
    ensures BuildTemplateParams(d, formatAmount, submittedAt).unpaidDetails == "일반관리비, 연체료"
  {
    var labels := MapSeq(SendEmailRoute.TranslateUnpaidDetail, d.unpaidDetails);
    assert labels == ["일반관리비", "연체료"];
    assert labels[1..] == ["연체료"];
    assert Join(labels, ", ") == "일반관리비" + ", " + "연체료";
  }

  datatype SubmitStatus = Idle | Success | Error

  /** The delivery service's configuration; an unset or empty identifier is
      missing. */
  datatype EmailJsConfig = EmailJsConfig(serviceId: Option<string>, templateId: Option<string>)

  predicate Configured(cfg: EmailJsConfig)
  {
    cfg.serviceId.Some? && cfg.serviceId.value != "" &&
    cfg.templateId.Some? && cfg.templateId.value != ""
  }

  /** How the send call settles: it answers with a status, or it throws. */
  datatype SendOutcome = Responded(status: int) | Threw

  /** The form component's state. */
  class RequestForm {
    var formData: FormData
    var isSubmitting: bool
    var submitStatus: SubmitStatus

    /** What the form keeps true while the user edits it through its own
        inputs: the phone field is in formatted shape and no unpaid-detail
        code is listed twice. */
    ghost predicate Consistent()
      reads this
    {
      IsFormatted(formData.clientPhone) && NoDup(formData.unpaidDetails)
    }

    constructor ()
      ensures formData == InitialFormData && !isSubmitting && submitStatus == Idle
      ensures Consistent()
    {
      formData := InitialFormData;
      isSubmitting := false;
      submitStatus := Idle;
    }

    /** `handleInputChange` */
    method HandleInputChange(name: string, value: string, inputType: string, checked: bool)
      modifies this
      ensures isSubmitting == old(isSubmitting) && submitStatus == old(submitStatus)
      ensures inputType == "checkbox" && name == "unpaidDetails" ==>
        formData == old(formData).(unpaidDetails := CheckDetail(old(formData.unpaidDetails), value, checked))
      ensures inputType == "checkbox" && name == "privacyConsent" ==>
        formData == old(formData).(privacyConsent := checked)
      ensures inputType == "checkbox" && name != "unpaidDetails" && name != "privacyConsent" ==>
        formData == old(formData)
      ensures inputType != "checkbox" ==>
        formData == match FieldNamed(name)
                    case Some(f) => WithText(old(formData), f, value)
                    case None => old(formData)
      ensures old(Consistent()) && name != "clientPhone" &&
              (inputType == "checkbox" && name == "unpaidDetails" && checked ==> value !in old(formData.unpaidDetails))
              ==> Consistent()
    {
      if inputType == "checkbox" {
        if name == "unpaidDetails" {
          if old(Consistent()) && (checked ==> value !in formData.unpaidDetails) {
            CheckDetailKeepsNoDup(formData.unpaidDetails, value, checked);
          }
          formData := formData.(unpaidDetails := CheckDetail(formData.unpaidDetails, value, checked));
        } else if name == "privacyConsent" {
          formData := formData.(privacyConsent := checked);
        }
      } else {
        match FieldNamed(name)
        case Some(f) =>
          formData := WithText(formData, f, value);
        case None =>
      }
    }

    /** `handlePhoneChange`: the typed value is stored formatted. */
    method HandlePhoneChange(name: string, value: string)
      modifies this
      ensures isSubmitting == old(isSubmitting) && submitStatus == old(submitStatus)
      ensures formData == match FieldNamed(name)
                          case Some(f) => WithText(old(formData), f, FormatPhoneNumber(value))
                          case None => old(formData)
      ensures name == "clientPhone" ==> formData.clientPhone == FormatPhoneNumber(value)
      ensures old(Consistent()) ==> Consistent()
    {
      var formatted := FormatPhoneNumber(value);
      FormatIdempotent(value);
      match FieldNamed(name)
      case Some(f) =>
        formData := WithText(formData, f, formatted);
      case None =>
    }

    /** `handleSubmit`, as one atomic step. `alerted` is the consent alert;
        `sent` is the parameter set handed to the delivery service, if the
        call was made; `outcome` is how that call settles. */
    method HandleSubmit(cfg: EmailJsConfig, outcome: SendOutcome,
                        formatAmount: string -> string, submittedAt: string)
      returns (alerted: bool, sent: Option<TemplateParams>)
      modifies this
      ensures alerted <==> !old(formData.privacyConsent)
      ensures alerted ==>
        sent.None? && formData == old(formData) &&
        submitStatus == old(submitStatus) && isSubmitting == old(isSubmitting)
      ensures !alerted ==> !isSubmitting && submitStatus != Idle
      ensures sent.Some? <==> !alerted && Configured(cfg)
      ensures sent.Some? ==> sent.value == BuildTemplateParams(old(formData), formatAmount, submittedAt)
      ensures !alerted ==>
        (submitStatus == Success <==> sent.Some? && outcome == Responded(200))
      ensures !alerted && submitStatus == Success ==> formData == InitialFormData
      ensures !alerted && submitStatus == Error ==> formData == old(formData)
      ensures old(Consistent()) ==> Consistent()
    {
      alerted := false;
      sent := None;
      if !formData.privacyConsent {
        alerted := true;
        return;
      }

      isSubmitting := true;
      submitStatus := Idle;

      if !Configured(cfg) {
        submitStatus := Error;
      } else {
        var params := BuildTemplateParams(formData, formatAmount, submittedAt);
        sent := Some(params);
        if outcome == Responded(200) {
          submitStatus := Success;
          formData := InitialFormData;
        } else {
          submitStatus := Error;
        }
      }
      isSubmitting := false;
    }
  }
}

=== FILE: send_email_route.dfy ===
/** The server mail route: it reads the posted request body, renders each
    field of the notification mail (label translation, defaults for optional
    fields, the unpaid-items line), composes the subject line and hands the
    mail to the outbound transport, answering with a success or a 500 envelope.
    The HTML markup around the fields is not modelled, only the values put
    into it. */
module SendEmailRoute {
  import opened Common

  /** A value of the posted JSON body as the template literal sees it.
      `Undefined` is a field the body does not have; `Obj` is any other
      object. Arrays are restricted to arrays of strings. */
  datatype Value =
    | Undefined
    | Null
    | Bool(b: bool)
    | Num(n: int)
    | Str(s: string)
    | StrArray(items: seq<string>)
    | Obj

  /** JavaScript truthiness, which decides the `||` defaults: exactly five
      of the modelled values are falsy. */
  predicate Truthy(v: Value)
    ensures Truthy(v) <==> v !in {Undefined, Null, Bool(false), Num(0), Str("")}
  {
    match v
    case Undefined => false
    case Null => false
    case Bool(b) => b
    case Num(n) => n != 0
    case Str(s) => s != ""
    case StrArray(_) => true
    case Obj => true
  }

  /** The number a string of decimal digits denotes. */
  function DecimalValue(s: string): nat
  {
    if s == [] then 0
    else 10 * DecimalValue(s[..|s| - 1]) + (if '0' <= s[|s| - 1] <= '9' then (s[|s| - 1] - '0') as nat else 0)
  }

  predicate DigitString(s: string)
  {
    forall i :: 0 <= i < |s| ==> '0' <= s[i] <= '9'
  }

  /** s is the canonical decimal writing of n: non-empty, digits only, no
      leading zero unless it is "0", and it reads back as n. */
  predicate Decimal(s: string, n: nat)
  {
    s != "" && DigitString(s) && (s[0] == '0' ==> s == "0") && DecimalValue(s) == n
  }

  /** A digit string that does not start with 0 denotes a positive number. */
  lemma {:induction false} LeadingDigitPositive(s: string)
    requires s != "" && DigitString(s) && s[0] != '0'
    ensures DecimalValue(s) > 0
  {
    var p := s[..|s| - 1];
    if p != [] {
      assert p[0] == s[0];
      LeadingDigitPositive(p);
    }
  }

  /** A number has exactly one canonical decimal writing. */
  lemma {:induction false} DecimalUnique(s: string, t: string, n: nat)
    requires Decimal(s, n) && Decimal(t, n)
    ensures s == t
  {
    var p, q := s[..|s| - 1], t[..|t| - 1];
    if |s| >= 2 {
      assert p[0] == s[0];
      LeadingDigitPositive(p);
    }
    if |t| >= 2 {
      assert q[0] == t[0];
      LeadingDigitPositive(q);
    }
    if |s| >= 2 {
      assert p[0] == s[0] && q[0] == t[0];
      DecimalUnique(p, q, DecimalValue(p));
      assert s == p + [s[|s| - 1]] && t == q + [t[|t| - 1]];
    }
  }

  /** The decimal writing of a number. */
  function NatToString(n: nat): (r: string)
    ensures Decimal(r, n)
    decreases n
  {
    var d := ['0' + (n % 10) as char];
    if n < 10 then
      assert d[..0] == [];
      d
    else
      var r := NatToString(n / 10) + d;
      assert r[..|r| - 1] == NatToString(n / 10);
      r
  }

  /** What `${v}` writes into the template. */
  function Render(v: Value): (r: string)
    ensures v == Undefined ==> r == "undefined"
    ensures v == Null ==> r == "null"
    ensures v.Bool? ==> r == (if v.b then "true" else "false")
    ensures v.Num? && v.n >= 0 ==> Decimal(r, v.n)
    ensures v.Num? && v.n < 0 ==> |r| >= 2 && r[0] == '-' && Decimal(r[1..], -v.n)
    ensures v.Str? ==> r == v.s
    ensures v.StrArray? ==> r == Join(v.items, ",")
    ensures v == Obj ==> r == "[object Object]"
  {
    match v
    case Undefined => "undefined"
    case Null => "null"
    case Bool(b) => if b then "true" else "false"
    case Num(n) => if n < 0 then "-" + NatToString(-n) else NatToString(n)
    case Str(s) => s
    case StrArray(items) => Join(items, ",")
    case Obj => "[object Object]"
  }

  /** A truthy value renders as text, except an array whose items join to
      nothing (`[]` or `[""]`). */
  lemma TruthyRendersText(v: Value)
    requires Truthy(v) && !v.StrArray?
    ensures Render(v) != ""
  {
  }

  /** `${v || fallback}` */
  function OrDefault(v: Value, fallback: string): (r: string)
    requires fallback != ""
    ensures Truthy(v) ==> r == Render(v)
    ensures !Truthy(v) ==> r == fallback
    ensures r == "" ==> v.StrArray?
  {
    if Truthy(v) then Render(v) else fallback
  }

  const ClientTypeLabels: map<string, string> := map[
    "management_office" := "관리사무소",
    "management_committee" := "관리위원회",
    "management_company" := "위탁관리회사",
    "individual" := "개인"
  ]

  const PreviousAttemptLabels: map<string, string> := map[
    "none" := "없음",
    "phone" := "전화연락",
    "letter" := "우편발송",
    "visit" := "방문",
    "legal" := "법적조치",
    "multiple" := "복합시도"
  ]

  const UnpaidDetailLabels: map<string, string> := map[
    "management_fee" := "일반관리비",
    "repair_fund" := "수선충당금",
    "utility_fee" := "전기료",
    "late_fee" := "연체료",
    "special_fee" := "특별징수금",
    "other" := "기타"
  ]

  /** `translateClientType` */
  function TranslateClientType(code: string): (name: string)
    ensures code == "management_office" ==> name == "관리사무소"
    ensures code == "management_committee" ==> name == "관리위원회"
    ensures code == "management_company" ==> name == "위탁관리회사"
    ensures code == "individual" ==> name == "개인"
    ensures name != code <==>
      code in {"management_office", "management_committee", "management_company", "individual"}
  {
    LookupOr(ClientTypeLabels, code)
  }

  /** `translatePreviousAttempts` */
  function TranslatePreviousAttempts(code: string): (name: string)
    ensures code == "none" ==> name == "없음"
    ensures code == "phone" ==> name == "전화연락"
    ensures code == "letter" ==> name == "우편발송"
    ensures code == "visit" ==> name == "방문"
    ensures code == "legal" ==> name == "법적조치"
    ensures code == "multiple" ==> name == "복합시도"
    ensures name != code <==>
      code in {"none", "phone", "letter", "visit", "legal", "multiple"}
  {
    LookupOr(PreviousAttemptLabels, code)
  }

  /** `translateUnpaidDetail` */
  function TranslateUnpaidDetail(code: string): (name: string)
    ensures code == "management_fee" ==> name == "일반관리비"
    ensures code == "repair_fund" ==> name == "수선충당금"
    ensures code == "utility_fee" ==> name == "전기료"
    ensures code == "late_fee" ==> name == "연체료"
    ensures code == "special_fee" ==> name == "특별징수금"
    ensures code == "other" ==> name == "기타"
    ensures name != code <==>
      code in {"management_fee", "repair_fund", "utility_fee", "late_fee", "special_fee", "other"}
  {
    LookupOr(UnpaidDetailLabels, code)
  }

  /** A translator applied to a posted value: only a string is looked up;
      any other value is handed back and rendered as it is. */
  function TranslateValue(translate: string -> string, v: Value): (r: Value)
    ensures !v.Str? ==> r == v
    ensures v.Str? ==> r == Str(translate(v.s))
  {
    if v.Str? then Str(translate(v.s)) else v
  }

  /** `codes.map(translateUnpaidDetail).join(', ')` */
  function DetailsLine(codes: seq<string>): (line: string)
    ensures codes == [] ==> line == ""
    ensures |codes| == 1 ==> line == TranslateUnpaidDetail(codes[0])
    ensures codes != [] ==> var first := TranslateUnpaidDetail(codes[0]);
      |first| <= |line| && line[..|first|] == first
  {
    Join(MapSeq(TranslateUnpaidDetail, codes), ", ")
  }

  /** Each further code adds ", " and its label to the line. */
  lemma DetailsLineSnoc(codes: seq<string>, c: string)
    requires codes != []
    ensures DetailsLine(codes + [c]) == DetailsLine(codes) + ", " + TranslateUnpaidDetail(c)
  {
    assert MapSeq(TranslateUnpaidDetail, codes + [c])
      == MapSeq(TranslateUnpaidDetail, codes) + [TranslateUnpaidDetail(c)];
    JoinSnoc(MapSeq(TranslateUnpaidDetail, codes), TranslateUnpaidDetail(c), ", ");
  }

  lemma {:induction false} DetailLabelCommaFree(code: string)
    requires CommaFree(code)
    ensures CommaFree(TranslateUnpaidDetail(code))
  {
  }

  /** The unpaid-items line lists the translated codes in input order: a
      non-empty line of comma-free codes reads back as exactly the translated
      codes. */
  lemma DetailsLineReadsBack(codes: seq<string>)
    requires forall k :: 0 <= k < |codes| ==> CommaFree(codes[k])
    ensures codes != [] ==>
      SplitList(DetailsLine(codes)) == seq(|codes|, i requires 0 <= i < |codes| => TranslateUnpaidDetail(codes[i]))
  {
    var labels := MapSeq(TranslateUnpaidDetail, codes);
    if codes != [] {
      forall k | 0 <= k < |labels| ensures CommaFree(labels[k]) {
        DetailLabelCommaFree(codes[k]);
      }
      SplitJoin(labels);
    }
  }

  /** The request body, field by field as the route reads it. */
  datatype RequestBody = RequestBody(
    clientName: Value, clientPhone: Value, clientEmail: Value,
    apartmentName: Value, clientType: Value, clientPosition: Value,
    debtorName: Value, debtorUnit: Value, debtorPhone: Value,
    unpaidPeriod: Value, unpaidAmount: Value, unpaidDetails: Value,
    previousAttempts: Value, specialNotes: Value, hasDocuments: Value)

  /** The values written into the mail, section by section. */
  datatype EmailFields = EmailFields(
    clientName: string, clientPhone: string, clientEmail: string,
    apartmentName: string, clientType: string, clientPosition: string,
    debtorName: string, debtorUnit: string, debtorPhone: string,
    unpaidPeriod: string, unpaidAmount: string, unpaidDetails: string,
    previousAttempts: string, specialNotes: string, hasDocuments: string,
    submittedAt: string)

  /** Renders the mail body. `formatAmount` stands for
      `parseInt(v).toLocaleString()` and `submittedAt` for the clock reading;
      `None` is the TypeError thrown when `unpaidDetails` is not an array. */
  function RenderEmail(body: RequestBody, formatAmount: Value -> string, submittedAt: string): (r: Option<EmailFields>)
    ensures r.Some? <==> body.unpaidDetails.StrArray?
    ensures r.Some? ==>
      && r.value.clientType == Render(TranslateValue(TranslateClientType, body.clientType))
      && r.value.previousAttempts == Render(TranslateValue(TranslatePreviousAttempts, body.previousAttempts))
      && r.value.unpaidDetails == DetailsLine(body.unpaidDetails.items)
      && r.value.unpaidAmount == formatAmount(body.unpaidAmount) + "원"
      && (!Truthy(body.clientPosition) ==> r.value.clientPosition == "미입력")
      && (Truthy(body.clientPosition) ==> r.value.clientPosition == Render(body.clientPosition))
      && (!Truthy(body.debtorPhone) ==> r.value.debtorPhone == "미입력")
      && (Truthy(body.debtorPhone) ==> r.value.debtorPhone == Render(body.debtorPhone))
      && (!Truthy(body.specialNotes) ==> r.value.specialNotes == "없음")
      && (Truthy(body.specialNotes) ==> r.value.specialNotes == Render(body.specialNotes))
      && r.value.hasDocuments == (if Truthy(body.hasDocuments) then "있음" else "없음")
      && r.value.clientName == Render(body.clientName)
      && r.value.clientPhone == Render(body.clientPhone)
      && r.value.clientEmail == Render(body.clientEmail)
      && r.value.apartmentName == Render(body.apartmentName)
      && r.value.debtorName == Render(body.debtorName)
      && r.value.debtorUnit == Render(body.debtorUnit)
      && r.value.unpaidPeriod == Render(body.unpaidPeriod)
      && r.value.submittedAt == submittedAt
  {
    match body.unpaidDetails
    case StrArray(codes) =>
      Some(EmailFields(
        Render(body.clientName), Render(body.clientPhone), Render(body.clientEmail),
        Render(body.apartmentName),
        Render(TranslateValue(TranslateClientType, body.clientType)),
        OrDefault(body.clientPosition, "미입력"),
        Render(body.debtorName), Render(body.debtorUnit),
        OrDefault(body.debtorPhone, "미입력"),
        Render(body.unpaidPeriod),
        formatAmount(body.unpaidAmount) + "원",
        DetailsLine(codes),
        Render(TranslateValue(TranslatePreviousAttempts, body.previousAttempts)),
        OrDefault(body.specialNotes, "없음"),
        if Truthy(body.hasDocuments) then "있음" else "없음",
        submittedAt))
    case _ => None
  }

  const SubjectPrefix := "[베스트청산] 새로운 관리비 청산 의뢰 - "

  /** The subject line: the fixed prefix, then the site name and the unit,
      separated by one space. */
  function Subject(body: RequestBody): (r: string)
    ensures |r| == |SubjectPrefix| + |Render(body.apartmentName)| + 1 + |Render(body.debtorUnit)|
    ensures r[..|SubjectPrefix|] == SubjectPrefix
    ensures r[|SubjectPrefix| + |Render(body.apartmentName)|] == ' '
    ensures r[|SubjectPrefix|..|SubjectPrefix| + |Render(body.apartmentName)|] == Render(body.apartmentName)
    ensures r[|r| - |Render(body.debtorUnit)|..] == Render(body.debtorUnit)
  {
    SubjectPrefix + Render(body.apartmentName) + " " + Render(body.debtorUnit)
  }

  /** What the route hands to the transport. */
  datatype Mail = Mail(subject: string, fields: EmailFields)

  /** The JSON envelope and its HTTP status. */
  datatype Response = Response(status: int, success: bool, message: string)

  const SuccessMessage := "의뢰서가 성공적으로 제출되었습니다."
  const FailureMessage := "의뢰서 제출 중 오류가 발생했습니다."

  datatype PostResult = PostResult(response: Response, sent: Option<Mail>)

  /** `POST`: `parsed` is `None` when `request.json()` rejects or yields no
      object; `transportAccepts` is the outcome of `sendMail`, consulted
      only when the mail was handed over. */
  function Post(parsed: Option<RequestBody>, transportAccepts: bool,
                formatAmount: Value -> string, submittedAt: string): (r: PostResult)
    ensures r.response.status == 200 || r.response.status == 500
    ensures r.response.success <==> r.response.status == 200
    ensures r.response.message == (if r.response.success then SuccessMessage else FailureMessage)
    ensures r.sent.Some? <==> parsed.Some? && parsed.value.unpaidDetails.StrArray?
    ensures r.sent.Some? ==>
      && r.sent.value.subject == Subject(parsed.value)
      && Some(r.sent.value.fields) == RenderEmail(parsed.value, formatAmount, submittedAt)
    ensures r.response.success <==> r.sent.Some? && transportAccepts
  {
    var failure := PostResult(Response(500, false, FailureMessage), None);
    match parsed
    case None => failure
    case Some(body) =>
      match RenderEmail(body, formatAmount, submittedAt)
      case None => failure
      case Some(fields) =>
        var mail := Mail(Subject(body), fields);
        if transportAccepts then PostResult(Response(200, true, SuccessMessage), Some(mail))
        else PostResult(Response(500, false, FailureMessage), Some(mail))
  }
}
